=== FILE: README.md ===
# Float statistics services — a Dafny model

This project models the core of a small data-collection system made of three
web services:

- The **analytics service** reads every stored measurement from a MySQL table
  and computes the minimum, maximum, mean and median. It caches the result as
  the single "descriptive_statistics" document of a MongoDB collection. It
  serves that cache, refreshing it on demand when empty.
- The **backend** inserts measurements into the same table and reads the
  cached snapshot back, projected onto its four statistic fields.
- The **authentication service** keeps an in-memory registry from user name
  to password hash and issues bearer tokens on login.

What the model covers:

- **Retry loops.** Each of the three retrying clients (the analytics
  service's MySQL and MongoDB clients and the backend's MySQL client) has its
  own copy of a connection loop. The backend's MongoDB client has no loop. The model runs the loop over a finite stream of attempt outcomes:
  - live connection;
  - connection that opened but is not live;
  - caught exception;
  - any other exception.

  The loop returns how it ended, how many outcomes it read and how many times
  it slept. A declarative description (`Retry.Explains`) is proved to admit
  exactly the loop's run. A per-client `Policy` records the three copies'
  differences: the budget, the status raised when the budget is spent, and
  what happens when the loop body never runs.
- **Shared state.** The deployment is a `Deployment.World` holding:
  - the table (as a sequence of reals);
  - the collection (as a sequence of documents);
  - one outcome stream per database server;
  - flags saying whether a connected MySQL server rejects every statement, and whether a connected MongoDB server rejects every `find_one`/`replace_one` (its pings are in the stream);
  - the next document identifier.

  Every request is a pure function from a world to a result and the world
  after it. Each connection reads a prefix of its server's stream.
- **Handle release.** Inserts also return the log of handle events
  (open/close of connection and cursor). The contracts state which handles
  are released on the rejected and committed paths.

Files:

- `common.dfy`: options, results, errors, JSON values, handle-event logs.
- `retry.dfy`: the retry loop and the three client policies.
- `statistics.dfy`: `compute_statistics`.
- `cache.dfy`: the snapshot collection.
- `deployment.dfy`: shared state.
- `analytics.dfy`, `backend.dfy`, `auth.dfy`: the three services' endpoints.

## Model

| member | source | states |
|---|---|---|
| Retry.Loop | analytics_service/analytics_service.py:36-56 | The `while attempt < retries` loop itself, consuming one outcome per iteration. It never reads more outcomes than the stream holds. What it computes is pinned down by `Retry.LoopIsExplained`. |
| Retry.LoopIsExplained | analytics_service/analytics_service.py:35-56 | A run fits the declarative description of the loop exactly when it is the loop's run. The description says: the loop stops at the first live or uncaught outcome, or at the caught exception that brings the count to the budget. Not-live connections go round again uncounted. Each caught exception before the stop is followed by one sleep. |
| Retry.LoopExplained | analytics_service/analytics_service.py:35-56 | The loop's run fits the declarative description, by induction over the stream. |
| Retry.ExplainsUnique | analytics_service/analytics_service.py:35-56 | At most one run fits the description, so it determines the loop completely. |
| Retry.Acquire | backend/main.py:34-65 | What a caller receives. A non-positive budget gives the after-loop result without reading the stream. Otherwise it sleeps fewer times than the budget. A returned connection was the last outcome read, and that outcome was live. Any failure is the policy's exhaustion error, an escaping exception, or the outcome stream running dry. |
| Retry.AcquireSleeps | analytics_service/analytics_service.py:37-56 | For any stream: a success comes after one sleep per caught exception before it, fewer than the budget. Raising the exhaustion error means exactly `retries` caught exceptions were read and `retries - 1` sleeps taken, whatever not-live connections came between. |
| Retry.AcquireAfterFailures | analytics_service/analytics_service.py:37-56 | `n` caught exceptions within budget, then a live connection: connected on attempt `n + 1` after exactly `n` sleeps. |
| Retry.AcquireExhausted | analytics_service/analytics_service.py:47-54 | `retries` caught exceptions in a row raise the policy's error on the last one, after `retries - 1` sleeps, whatever follows in the stream. |
| Retry.AnalyticsMysqlRetry | analytics_service/analytics_service.py:35-56 | The analytics MySQL client raises 503 after `retries` failures. It returns `None` when the budget is not positive. |
| Retry.BackendDbRetry | backend/main.py:34-65 | The backend client raises 500 (not 503) after `retries` failures. With a non-positive budget it raises the 500 "Unknown error" without trying. |
| Retry.NotLiveIsNotCounted | analytics_service/analytics_service.py:45-48 | Dropping the not-live connections from the stream changes neither how the loop ends nor how often it sleeps. |
| Retry.LoopSucceedsAfter | backend/main.py:35-62 | From any count within budget, `n` caught exceptions then a live connection end in success after `n + 1` outcomes and `n` sleeps. |
| Retry.LoopExhaustedAfter | backend/main.py:52-60 | `n` caught exceptions that bring the count to the budget end in exhaustion after `n` outcomes and `n - 1` sleeps. |
| Retry.LoopPropagatesAfter | analytics_service/analytics_service.py:59-75 | An uncaught exception after `n` caught ones within budget escapes at once, after `n` sleeps. |
| Retry.AcquireMongo | analytics_service/analytics_service.py:59-75 | `get_mongo_connection(retries)`. A non-positive budget returns `None` without trying. A returned client is one whose ping answered on the last outcome read. Any failure is the 503, an escaping exception, or the stream running dry. |
| Retry.MongoOtherFailureEscapes | analytics_service/analytics_service.py:59-75 | Only server-selection timeouts are retried by the MongoDB client. Any other failure after `n` timeouts escapes unhandled on attempt `n + 1`. |
| Statistics.ComputeStatistics | analytics_service/analytics_service.py:97-108 | Empty input gives all four fields absent, and only empty input does. Otherwise min and max are input values bounding every input value. Mean and median lie between them. |
| Statistics.Min | analytics_service/analytics_service.py:103 | The result is an element of the input and no larger than any element. |
| Statistics.Max | analytics_service/analytics_service.py:104 | The result is an element of the input and no smaller than any element. |
| Statistics.Mean | analytics_service/analytics_service.py:105 | The mean lies between the minimum and the maximum. |
| Statistics.Median | analytics_service/analytics_service.py:106 | The median lies between the minimum and the maximum. |
| Statistics.Sort | analytics_service/analytics_service.py:106 | The result is ordered and is a permutation of the input. |
| Statistics.Insert | analytics_service/analytics_service.py:106 | Inserting into an ordered sequence keeps it ordered and adds exactly one occurrence of the value. |
| Statistics.SortedUnique | analytics_service/analytics_service.py:106 | Two ordered permutations of the same values are equal, so the median does not depend on how the values are ordered. |
| Statistics.SumSort | analytics_service/analytics_service.py:105 | Sorting preserves the sum. |
| Statistics.PermutationInvariant | analytics_service/analytics_service.py:78-108 | The snapshot does not depend on the order the table's rows come back in. |
| Statistics.MedianOfSorted | analytics_service/analytics_service.py:106 | On ordered input the median is the middle element (odd length) or the average of the two middle elements (even length). |
| Statistics.EvenMedianExample | analytics_service/analytics_service.py:106 | The median of 1, 2, 3, 4 is 2.5. |
| Statistics.OddMedianExample | analytics_service/analytics_service.py:106 | The median of 1, 2, 3 is 2. |
| Statistics.MeanExample | analytics_service/analytics_service.py:105 | The mean of 1, 2, 3, 4 is 2.5. |
| Statistics.UnorderedExample | analytics_service/analytics_service.py:97-108 | The snapshot of 3, 1, 2 has median 2. |
| Cache.FirstTagged | analytics_service/analytics_service.py:119-123 | The position the filter `{"type": "descriptive_statistics"}` selects is the first tagged document. It is absent exactly when no document is tagged. |
| Cache.StoredBody | analytics_service/analytics_service.py:121 | The replacement document `{"type": …, **stats}` has exactly the four statistic keys plus the tag, and each statistic field is the encoded stat. |
| Cache.FindOne | analytics_service/analytics_service.py:140 | `find_one` on the tag: `None` exactly when no document is tagged. Otherwise a tagged document of the collection with no tagged document before it. |
| Cache.Upsert | analytics_service/analytics_service.py:111-131 | Replacing with upsert: the first tagged document gets the new fields and keeps its identifier, or one tagged document with the fresh identifier is appended. No other document changes. The number of tagged documents becomes 1 if it was 0 and is otherwise unchanged. |
| Cache.FetchLatest | analytics_service/analytics_service.py:134-154 | `None` exactly when no document is tagged. Otherwise the fields of the first tagged document with `_id` and `type` removed, each with the document's value. |
| Cache.FetchAfterUpsert | analytics_service/analytics_service.py:111-154 | Reading after a write returns exactly the stats written, whatever the collection held. |
| Cache.UpsertKeepsSingleDocument | analytics_service/analytics_service.py:118-122 | With at most one snapshot document before a write, there is exactly one after it. |
| Cache.UpsertIdempotent | analytics_service/analytics_service.py:119-123 | Writing the same stats twice gives the same collection as writing once. |
| Cache.Project | backend/main.py:187-192 | The backend reply has exactly the four statistic keys, each the document's value or `null`. |
| Cache.ProjectStored | backend/main.py:181-192 | Projecting a stored snapshot gives back exactly the stats written: no tag or other field leaks. |
| Common.ClosesFollowed | backend/main.py:140-142 | In a balanced handle log every open handle is later closed. |
| Deployment.ContinuesTransitive | analytics_service/analytics_service.py:180-199 | Reading connection streams further composes across consecutive requests. |
| Analytics.ConnectMysql | analytics_service/analytics_service.py:80 | The default-budget `get_mysql_connection()` call. It only reads the MySQL stream further and changes no stored data and no other stream. |
| Analytics.ConnectMongo | analytics_service/analytics_service.py:113 | The default-budget `get_mongo_connection()` call. It only reads the MongoDB stream further and changes no stored data and no other stream. |
| Analytics.GetMysqlData | analytics_service/analytics_service.py:78-94 | Success exactly when the connection is live and the query is accepted. The result is every stored value. Raised statuses are 500 or 503. |
| Analytics.InsertLog | analytics_service/analytics_service.py:161-177 | The connection is closed last on both the rejected and the committed path. The cursor is opened but never closed exactly when a connection was obtained. |
| Analytics.InsertOn | analytics_service/analytics_service.py:165-174 | A rejected statement raises 500 and leaves the table alone. An accepted one appends exactly the value and echoes it with "success". A `None` connection escapes unhandled. |
| Analytics.InsertFloat | analytics_service/analytics_service.py:161-177 | Success exactly when the connection is live and the statement accepted. The table then gains the value at its end, and is otherwise unchanged. The cache is never touched. |
| Analytics.InsertToMongo | analytics_service/analytics_service.py:111-131 | Success exactly when the client is reachable and the write accepted. The collection then becomes the upsert of the stats, and is otherwise unchanged. Raised statuses are 500 or 503. |
| Analytics.GetFromMongo | analytics_service/analytics_service.py:134-154 | On success the result is the stripped snapshot (or `None`). The stores are never changed. |
| Analytics.RunAnalytics | analytics_service/analytics_service.py:180-199 | The table is never changed and the cache only on success. An empty table never reaches MongoDB, and when MySQL is reachable and accepts the query it answers 404; a 404 means the table was empty. A success returns the statistics of the table, and the cache then holds exactly them. |
| Analytics.Publish | analytics_service/analytics_service.py:192-199 | Computing and caching: on success the reply is the table's stats and the cache holds exactly them. A failure leaves the cache alone and is never the 404. |
| Analytics.GetStats | analytics_service/analytics_service.py:202-210 | The table is never changed. Whatever is returned is what the cache holds afterwards. |
| Analytics.RunAnalyticsOnEmptyTable | analytics_service/analytics_service.py:184-190 | An empty table gives 404 "No data found in the database" and only the MySQL stream moves. |
| Analytics.RunAnalyticsSucceeds | analytics_service/analytics_service.py:180-199 | With both stores reachable and a non-empty table, the refresh returns the table's statistics and upserts them. |
| Analytics.GetStatsHit | analytics_service/analytics_service.py:205-207 | A non-empty cached snapshot is returned as is. The MySQL stream is not read and nothing is written. |
| Analytics.GetStatsMiss | analytics_service/analytics_service.py:205-210 | A missing or field-less snapshot is exactly an on-demand refresh started after the cache read. |
| Analytics.RefreshThenRead | analytics_service/analytics_service.py:180-210 | After a successful refresh, a cached read that reaches MongoDB returns the same stats without a second refresh: the MySQL stream is not read and the cache is not written, only the MongoDB stream moves on. |
| Backend.ConnectDb | backend/main.py:34-65 | The backend client never hands back `None`. It only reads its stream further and changes no stored data. |
| Backend.InsertLog | backend/main.py:126-142 | Both the cursor and the connection are closed on the rejected and the committed path, the connection last. Nothing is opened when no connection was obtained. |
| Backend.InsertOn | backend/main.py:130-142 | A rejected statement raises 500 "Error inserting value" and leaves the table alone. An accepted one appends exactly the value and echoes it with "Value inserted successfully". |
| Backend.InsertFloat | backend/main.py:126-142 | Success exactly when the connection is live and the statement accepted. The table then gains the value at its end, and is otherwise unchanged. A connection failure is passed through. |
| Backend.GetStats | backend/main.py:176-192 | 404 "Statistics not found." exactly when MongoDB answers and no snapshot exists. A success has exactly the four statistic keys, projected from the snapshot document. The cache is never written. |
| Backend.ReadsWhatRefreshWrote | backend/main.py:176-192 | After the analytics service writes stats, the backend reads back exactly those stats. |
| Auth.Register | auth_service/main.py:41-48 | A name already present gives 400 and leaves the registry unchanged. A new name is added, mapped to the hash of its password. No other entry changes. |
| Auth.Login | auth_service/main.py:52-60 | A bearer token for the name exactly when it is registered with a non-empty stored hash that the password verifies against. Otherwise 401 "Invalid credentials". |
| Auth.RegisterThenLogin | auth_service/main.py:41-60 | A newly registered name can log in with its password. |
| Auth.RegisterKeepsOtherLogins | auth_service/main.py:41-60 | Registering never changes how any other name logs in. A refused duplicate changes nothing. |

## Left out

- The periodic background refresh is not modelled: no such loop exists in the analytics source.
- Startup table creation (`create_table_if_not_exists`) is left out. It runs once at import. Its SQL errors are only logged. A connection failure that `get_db_connection` raises after its retries is not caught there, and neither is a bad port number. Either escapes the import-time call and stops the backend from starting.
- These are routing or presentation concerns outside the core and are left out:
  - the backend `OPTIONS` route and root route;
  - CORS middleware;
  - the frontend server.
- The auth service's `protected` route and JWT expiry are left out. JWT encoding, bcrypt hashing and verification are foreign libraries and are passed in as functions. Salting, and therefore the fact that hashing the same password twice gives different hashes, is not modelled.
- Sleep durations (5 s and 10 s) and the clock: only the number of sleeps is counted.
- Logging output (`print`) is left out.
- Measurements are exact reals, not IEEE doubles or MySQL `FLOAT` columns. Rounding in the mean and median is not modelled.
- Concurrency between requests is not modelled: requests are applied one after another to the shared state.
- Exception texts: each HTTP error's detail is the fixed prefix of the source's message. The interpolated exception text is dropped.
- Row order of `SELECT value FROM float_values` is left out. The model returns the table in insertion order, and `Statistics.PermutationInvariant` shows the order does not matter.
- A finite outcome stream replaces the servers. When the stream ends before a loop decides, the request ends in `Stalled`, where the running program would keep trying.
- The backend's MongoDB query observes one outcome from the same stream. All of its failures escape unhandled, since that client has no retry loop.
- Handles the source never closes are not tracked beyond the insert logs, and their release by garbage collection is outside the model. They are:
  - the analytics insert's cursor (visible in its log);
  - the cursor of the analytics full read;
  - every connection the MySQL loops of both services open and drop because it is not live;
  - the MongoDB client of every failed ping in the analytics retry loop;
  - the backend's MongoDB client;
  - the backend insert's connection when `connection.cursor()` raises: that call comes before the `try`, so the exception escapes unhandled and the `finally` that closes the connection never runs. The model has no cursor-failure outcome, so this path is not modelled.

=== FILE: analytics.dfy ===
/**
 The analytics service: reading all measurements, inserting one, writing and
 reading the cached snapshot, the on-demand refresh (`/run-analytics/`) and
 the cached read with refresh fallback (`/get-stats/`). Every function takes
 the shared state and returns the request's outcome with the state after it.
 */
module Analytics {
  import opened Common
  import opened Retry
  import opened Statistics
  import opened Cache
  import opened Deployment

  /** `get_mysql_connection()` with its default budget, reading the MySQL stream. */
  function ConnectMysql(w: World): (r: (Conn, World))
    ensures Continues(w, r.1) && SameData(w, r.1) && r.1.mongoPings == w.mongoPings
  {
    var a := Acquire(AnalyticsMysql(MysqlRetries), w.mysqlAttempts);
    (a.conn, w.(mysqlAttempts := w.mysqlAttempts[a.consumed..]))
  }

  /** `get_mongo_connection()` with its default budget, reading the MongoDB stream. */
  function ConnectMongo(w: World): (r: (Conn, World))
    ensures Continues(w, r.1) && SameData(w, r.1) && r.1.mysqlAttempts == w.mysqlAttempts
  {
    var a := AcquireMongo(MongoRetries, w.mongoPings);
    (a.conn, w.(mongoPings := w.mongoPings[a.consumed..]))
  }

  /** A connected MySQL server refused the statement. */
  const StatementRejected := Http(500, "Database error")

  /** `get_mysql_data`: every stored value, or the connection's failure, or a
      500 when the query is rejected. A `None` connection (impossible with the
      default budget) fails on `None.cursor()` outside the handled exceptions. */
  function GetMysqlData(w: World): (st: Step<seq<real>>)
    ensures Continues(w, st.world) && SameData(w, st.world) && st.world.mongoPings == w.mongoPings
    ensures st.result.Ok? <==> ConnectMysql(w).0 == Open && !w.sqlRejects
    ensures st.result.Ok? ==> st.result.value == w.values
    ensures st.result.Err? && st.result.error.Http? ==> st.result.error.status in {500, 503}
  {
    var (conn, w1) := ConnectMysql(w);
    match conn
    case Open =>
      if w.sqlRejects then Step(Err(StatementRejected), w1)
      else Step(Ok(w.values), w1)
    case ReturnedNone => Step(Err(Unhandled), w1)
    case Failed(e) => Step(Err(e), w1)
  }

  /** Handle events of an insert: none when no connection was obtained;
      otherwise the connection is closed last whether the statement was
      rejected or committed. The cursor is never closed explicitly. */
  const RejectedLog := [OpenConnection, OpenCursor, Execute, CloseConnection]
  const CommittedLog := [OpenConnection, OpenCursor, Execute, Commit, CloseConnection]

  function InsertLog(conn: Conn, rejected: bool): (log: seq<Event>)
    ensures Closes(log, OpenConnection, CloseConnection)
    ensures log != [] ==> log[|log| - 1] == CloseConnection
    ensures conn == Open <==> OpenCursor in log && CloseCursor !in log
  {
    assert RejectedLog[1] == OpenCursor && CommittedLog[1] == OpenCursor;
    if conn != Open then []
    else if rejected then RejectedLog
    else CommittedLog
  }

  /** The statement half of an insert, on the connection obtained and the
      state after obtaining it. A `None` connection fails on `None.cursor()`
      outside the handled exceptions. */
  function InsertOn(conn: Conn, w: World, v: real): (st: Step<Json>)
    ensures st.result.Ok? <==> conn == Open && !w.sqlRejects
    ensures st.result.Ok? ==>
              && st.world == w.(values := w.values + [v])
              && st.result.value == map["value" := Num(v), "status" := Str("success")]
    ensures st.result.Err? ==> st.world == w
    ensures conn == Open && w.sqlRejects ==> st.result == Err(StatementRejected)
    ensures conn == ReturnedNone ==> st.result == Err(Unhandled)
    ensures conn.Failed? ==> st.result == Err(conn.error)
  {
    match conn
    case Open =>
      if w.sqlRejects then Step(Err(StatementRejected), w)
      else Step(Ok(map["value" := Num(v), "status" := Str("success")]), w.(values := w.values + [v]))
    case ReturnedNone => Step(Err(Unhandled), w)
    case Failed(e) => Step(Err(e), w)
  }

  /** `/insert-float/` of the analytics service: on success the table gains
      exactly `v` at its end and the reply echoes `v`; on any failure the table
      is unchanged. The handle events are those of `InsertLog`. */
  function InsertFloat(w: World, v: real): (r: (Step<Json>, seq<Event>))
    ensures Continues(w, r.0.world) && r.0.world.cache == w.cache && r.0.world.mongoPings == w.mongoPings
    ensures r.0.result.Ok? ==>
              && r.0.world.values == w.values + [v]
              && r.0.result.value == map["value" := Num(v), "status" := Str("success")]
    ensures r.0.result.Err? ==> r.0.world.values == w.values
    ensures r.0.result.Ok? <==> ConnectMysql(w).0 == Open && !w.sqlRejects
    ensures r.1 == InsertLog(ConnectMysql(w).0, w.sqlRejects)
  {
    var c := ConnectMysql(w);
    var st := InsertOn(c.0, c.1, v);
    (st, InsertLog(c.0, w.sqlRejects))
  }

  /** `insert_to_mongodb`: the snapshot replaces the tagged document. A `None`
      client raises inside the handler and again in `client.close()`, so the
      exception that escapes is not the handler's. */
  function InsertToMongo(w: World, s: Stats): (st: Step<bool>)
    ensures Continues(w, st.world) && st.world.values == w.values && st.world.mysqlAttempts == w.mysqlAttempts
    ensures st.result.Ok? <==> ConnectMongo(w).0 == Open && !w.mongoRejects
    ensures st.result.Ok? ==> st.world.cache == Upsert(w.cache, s, w.nextId)
    ensures st.result.Err? ==> st.world.cache == w.cache
    ensures st.result.Err? && st.result.error.Http? ==> st.result.error.status in {500, 503}
  {
    var (conn, w1) := ConnectMongo(w);
    match conn
    case Open =>
      if w.mongoRejects then Step(Err(Http(500, "MongoDB error")), w1)
      else Step(Ok(true), w1.(cache := Upsert(w.cache, s, w.nextId), nextId := w.nextId + 1))
    case ReturnedNone => Step(Err(Unhandled), w1)
    case Failed(e) => Step(Err(e), w1)
  }

  /** `get_from_mongodb`: the snapshot's fields without `_id` and `type`, or
      `None`; reading never changes the stores. */
  function GetFromMongo(w: World): (st: Step<Option<Json>>)
    ensures Continues(w, st.world) && SameData(w, st.world) && st.world.mysqlAttempts == w.mysqlAttempts
    ensures st.result.Ok? <==> ConnectMongo(w).0 == Open && !w.mongoRejects
    ensures st.result.Ok? ==> st.result.value == FetchLatest(w.cache)
  {
    var (conn, w1) := ConnectMongo(w);
    match conn
    case Open =>
      if w.mongoRejects then Step(Err(Http(500, "MongoDB error")), w1)
      else Step(Ok(FetchLatest(w.cache)), w1)
    case ReturnedNone => Step(Err(Unhandled), w1)
    case Failed(e) => Step(Err(e), w1)
  }

  const NoData := Http(404, "No data found in the database")

  /** `/run-analytics/`: read, compute, cache, return. The table is never
      changed; the cache changes only on success, and then holds exactly the
      stats returned; an empty table never reaches the cache store. */
  function RunAnalytics(w: World): (st: Step<Json>)
    ensures Continues(w, st.world) && st.world.values == w.values
    ensures st.result.Err? ==> st.world.cache == w.cache
    ensures w.values == [] ==> st.result.Err? && st.world.mongoPings == w.mongoPings
    ensures st.result == Err(NoData) ==> w.values == [] && st.world.mongoPings == w.mongoPings
    ensures w.values == [] && ConnectMysql(w).0 == Open && !w.sqlRejects ==> st.result == Err(NoData)
    ensures st.result.Ok? ==>
              && w.values != []
              && st.result.value == Encode(ComputeStatistics(w.values))
              && FetchLatest(st.world.cache) == Some(st.result.value)
  {
    var d := GetMysqlData(w);
    match d.result
    case Err(e) => Step(Err(e), d.world)
    case Ok(values) =>
      if values == [] then Step(Err(NoData), d.world)
      else
        var p := Publish(d.world, values);
        ContinuesTransitive(w, d.world, p.world);
        p
  }

  /** The compute-then-cache half of the refresh, on a non-empty table. */
  function Publish(w: World, values: seq<real>): (st: Step<Json>)
    requires values != []
    ensures Continues(w, st.world) && st.world.values == w.values
    ensures st.result.Err? ==> st.world.cache == w.cache && st.result.error != NoData
    ensures st.result.Ok? ==>
              && st.result.value == Encode(ComputeStatistics(values))
              && FetchLatest(st.world.cache) == Some(st.result.value)
  {
    var stats := ComputeStatistics(values);
    var m := InsertToMongo(w, stats);
    match m.result
    case Err(e) => Step(Err(e), m.world)
    case Ok(_) =>
      FetchAfterUpsert(w.cache, stats, w.nextId);
      Step(Ok(Encode(stats)), m.world)
  }

  /** `/get-stats/`: the cached snapshot when there is one with fields,
      otherwise an on-demand refresh. Whatever it returns is what the cache
      holds afterwards. */
  function GetStats(w: World): (st: Step<Json>)
    ensures Continues(w, st.world) && st.world.values == w.values
    ensures st.result.Err? ==> st.world.cache == w.cache
    ensures st.result.Ok? ==> FetchLatest(st.world.cache) == Some(st.result.value)
  {
    var f := GetFromMongo(w);
    match f.result
    case Err(e) => Step(Err(e), f.world)
    case Ok(cached) =>
      if cached.Some? && cached.value != map[] then Step(Ok(cached.value), f.world)
      else
        var r := RunAnalytics(f.world);
        ContinuesTransitive(w, f.world, r.world);
        r
  }

  /** An empty table answers 404 and leaves the cache and its store alone. */
  lemma RunAnalyticsOnEmptyTable(w: World)
    requires ConnectMysql(w).0 == Open && !w.sqlRejects
    requires w.values == []
    ensures RunAnalytics(w) == Step(Err(NoData), ConnectMysql(w).1)
  {
  }

  /** With both stores reachable and a non-empty table, the refresh returns
      the statistics of the table and writes them over the cached snapshot. */
  lemma RunAnalyticsSucceeds(w: World)
    requires ConnectMysql(w).0 == Open && !w.sqlRejects
    requires w.values != []
    requires ConnectMongo(ConnectMysql(w).1).0 == Open && !w.mongoRejects
    ensures RunAnalytics(w).result == Ok(Encode(ComputeStatistics(w.values)))
    ensures RunAnalytics(w).world.cache == Upsert(w.cache, ComputeStatistics(w.values), w.nextId)
  {
  }

  /** A cache hit is served from the cache alone: the MySQL stream is not
      touched and nothing is written. */
  lemma GetStatsHit(w: World, body: Json)
    requires ConnectMongo(w).0 == Open && !w.mongoRejects
    requires FetchLatest(w.cache) == Some(body) && body != map[]
    ensures GetStats(w) == Step(Ok(body), ConnectMongo(w).1)
    ensures GetStats(w).world.mysqlAttempts == w.mysqlAttempts
  {
  }

  /** A cache miss (no snapshot, or one without fields) is exactly an
      on-demand refresh started after the cache read. */
  lemma GetStatsMiss(w: World)
    requires ConnectMongo(w).0 == Open && !w.mongoRejects
    requires FetchLatest(w.cache) == None || FetchLatest(w.cache) == Some(map[])
    ensures GetStats(w) == RunAnalytics(ConnectMongo(w).1)
  {
  }

  /** After a successful refresh, a cached read that reaches the cache returns
      the very stats the refresh returned, without a second refresh. */
  lemma RefreshThenRead(w: World)
    requires RunAnalytics(w).result.Ok?
    requires ConnectMongo(RunAnalytics(w).world).0 == Open
    ensures GetStats(RunAnalytics(w).world).result == RunAnalytics(w).result
    ensures GetStats(RunAnalytics(w).world)
            == Step(RunAnalytics(w).result, ConnectMongo(RunAnalytics(w).world).1)
  {
    var r := RunAnalytics(w);
    assert r.result.value.Keys == StatKeys;
    GetStatsHit(r.world, r.result.value);
  }
}

=== FILE: auth.dfy ===
/**
 The authentication service's credential registry: an in-memory map from
 user name to password hash. Hashing, hash verification and token issuing
 are foreign libraries and are passed in as functions.
 */
module Auth {
  import opened Common

  /** `users_db`: user name to stored password hash. */
  type Users = map<string, string>

  datatype Token = Token(accessToken: string, tokenType: string)

  const Registered := "User registered successfully"
  const AlreadyExists := Http(400, "User already exists")
  const InvalidCredentials := Http(401, "Invalid credentials")

  /** `/register`: a new name is added, mapped to the hash of its password;
      an existing name is refused with 400 and the registry is unchanged.
      No existing entry is ever altered. */
  function Register(users: Users, username: string, password: string,
                    hash: string -> string): (r: (Result<string>, Users))
    ensures username in users <==> r.0 == Err(AlreadyExists)
    ensures username in users ==> r.1 == users
    ensures username !in users ==> r.0 == Ok(Registered) && username in r.1 && r.1[username] == hash(password)
    ensures r.1.Keys == users.Keys + {username}
    ensures forall u :: u in users ==> r.1[u] == users[u]
  {
    if username in users then (Err(AlreadyExists), users)
    else (Ok(Registered), users[username := hash(password)])
  }

  /** `/login`: a bearer token for the name when it is registered with a
      non-empty stored hash that the password verifies against; 401
      otherwise. The registry is only read. */
  function Login(users: Users, username: string, password: string,
                 verify: (string, string) -> bool, token: string -> string): (r: Result<Token>)
    ensures r.Ok? <==> username in users && users[username] != "" && verify(password, users[username])
    ensures r.Ok? ==> r.value.tokenType == "bearer" && r.value.accessToken == token(username)
    ensures r.Err? ==> r.error == InvalidCredentials
  {
    var stored := if username in users then users[username] else "";
    if stored == "" || !verify(password, stored) then Err(InvalidCredentials)
    else Ok(Token(token(username), "bearer"))
  }

  /** A name registered with a password can log in with it, given that the
      password verifies against its own (non-empty) hash. */
  lemma RegisterThenLogin(users: Users, username: string, password: string,
                          hash: string -> string, verify: (string, string) -> bool, token: string -> string)
    requires username !in users
    requires verify(password, hash(password)) && hash(password) != ""
    ensures Login(Register(users, username, password, hash).1, username, password, verify, token)
            == Ok(Token(token(username), "bearer"))
  {
  }

  /** Registering never changes how anyone else logs in, and a refused
      duplicate registration changes nothing at all. */
  lemma RegisterKeepsOtherLogins(users: Users, username: string, password: string, hash: string -> string,
                                 other: string, attempt: string,
                                 verify: (string, string) -> bool, token: string -> string)
    requires other != username || username in users
    ensures Login(Register(users, username, password, hash).1, other, attempt, verify, token)
            == Login(users, other, attempt, verify, token)
  {
  }
}

=== FILE: backend.dfy ===
/**
 The backend service: inserting one measurement with its own copy of the
 connection loop, and reading the cached snapshot projected onto its four
 statistic fields.
 */
module Backend {
  import opened Common
  import opened Retry
  import opened Cache
  import opened Deployment

  /** `get_db_connection()` with its default budget, reading the MySQL stream. */
  function ConnectDb(w: World): (r: (Conn, World))
    ensures Continues(w, r.1) && SameData(w, r.1) && r.1.mongoPings == w.mongoPings
    ensures r.0 != ReturnedNone
  {
    var a := Acquire(BackendDb(BackendRetries), w.mysqlAttempts);
    (a.conn, w.(mysqlAttempts := w.mysqlAttempts[a.consumed..]))
  }

  const Inserted := "Value inserted successfully"

  /** Handle events of an insert: none when no connection was obtained;
      otherwise the cursor and then the connection are closed whether the
      statement was rejected or committed. */
  const RejectedLog := [OpenConnection, OpenCursor, Execute, CloseCursor, CloseConnection]
  const CommittedLog := [OpenConnection, OpenCursor, Execute, Commit, CloseCursor, CloseConnection]

  function InsertLog(conn: Conn, rejected: bool): (log: seq<Event>)
    ensures Closes(log, OpenConnection, CloseConnection)
    ensures Closes(log, OpenCursor, CloseCursor)
    ensures log != [] ==> log[|log| - 1] == CloseConnection
    ensures conn == Open <==> OpenConnection in log
  {
    assert RejectedLog[0] == OpenConnection && CommittedLog[0] == OpenConnection;
    if conn != Open then []
    else if rejected then RejectedLog
    else CommittedLog
  }

  const InsertRejected := Http(500, "Error inserting value")

  /** The statement half of an insert, on the connection obtained and the
      state after obtaining it. */
  function InsertOn(conn: Conn, w: World, v: real): (st: Step<Json>)
    requires conn != ReturnedNone
    ensures st.result.Ok? <==> conn == Open && !w.sqlRejects
    ensures st.result.Ok? ==>
              && st.world == w.(values := w.values + [v])
              && st.result.value == map["message" := Str(Inserted), "value" := Num(v)]
    ensures st.result.Err? ==> st.world == w
    ensures conn == Open && w.sqlRejects ==> st.result == Err(InsertRejected)
    ensures conn.Failed? ==> st.result == Err(conn.error)
  {
    match conn
    case Open =>
      if w.sqlRejects then Step(Err(InsertRejected), w)
      else Step(Ok(map["message" := Str(Inserted), "value" := Num(v)]), w.(values := w.values + [v]))
    case Failed(e) => Step(Err(e), w)
  }

  /** `/insert-float/` of the backend: on success the table gains exactly `v`
      at its end and the reply echoes `v` with the success message; when the
      statement is rejected nothing is appended and 500 is raised. The handle
      events are those of `InsertLog`. */
  function InsertFloat(w: World, v: real): (r: (Step<Json>, seq<Event>))
    ensures Continues(w, r.0.world) && r.0.world.cache == w.cache && r.0.world.mongoPings == w.mongoPings
    ensures r.0.result.Ok? ==>
              && r.0.world.values == w.values + [v]
              && r.0.result.value == map["message" := Str(Inserted), "value" := Num(v)]
    ensures r.0.result.Err? ==> r.0.world.values == w.values
    ensures ConnectDb(w).0 == Open && w.sqlRejects ==> r.0.result == Err(InsertRejected)
    ensures ConnectDb(w).0.Failed? ==> r.0.result == Err(ConnectDb(w).0.error)
    ensures r.0.result.Ok? <==> ConnectDb(w).0 == Open && !w.sqlRejects
    ensures r.1 == InsertLog(ConnectDb(w).0, w.sqlRejects)
  {
    var c := ConnectDb(w);
    var st := InsertOn(c.0, c.1, v);
    assert st.world.mysqlAttempts == c.1.mysqlAttempts && st.world.mongoPings == c.1.mongoPings;
    (st, InsertLog(c.0, w.sqlRejects))
  }

  const NotFound := Http(404, "Statistics not found.")

  /** `/get-stats/` of the backend. The client is built without a retry loop;
      the query itself observes one MongoDB outcome, and any failure escapes
      unhandled. With no tagged document the answer is 404; otherwise exactly
      the four statistic keys, `null` for any the document lacks. The cache is
      never written. */
  function GetStats(w: World): (st: Step<Json>)
    ensures Continues(w, st.world) && SameData(w, st.world) && st.world.mysqlAttempts == w.mysqlAttempts
    ensures st.result == Err(NotFound) <==>
              w.mongoPings != [] && w.mongoPings[0] == Pong && !w.mongoRejects && CountTagged(w.cache) == 0
    ensures st.result.Ok? ==> st.result.value.Keys == StatKeys
    ensures st.result.Ok? ==> FindOne(w.cache).Some? && st.result.value == Project(FindOne(w.cache).value.body)
  {
    if w.mongoPings == [] then Step(Err(Stalled), w)
    else
      var w1 := w.(mongoPings := w.mongoPings[1..]);
      if w.mongoPings[0] != Pong || w.mongoRejects then Step(Err(Unhandled), w1)
      else
        match FindOne(w.cache)
        case None => Step(Err(NotFound), w1)
        case Some(d) => Step(Ok(Project(d.body)), w1)
  }

  /** The backend reads back exactly what the analytics refresh wrote. */
  lemma ReadsWhatRefreshWrote(c: Collection, s: Statistics.Stats, freshId: nat, w: World)
    requires w.cache == Upsert(c, s, freshId)
    requires w.mongoPings != [] && w.mongoPings[0] == Pong && !w.mongoRejects
    ensures GetStats(w).result == Ok(Encode(s))
  {
    var r := Upsert(c, s, freshId);
    var k :| 0 <= k < |r| && r[k].body == StoredBody(s) && FirstTagged(r) == Some(k);
    ProjectStored(s);
  }
}

=== FILE: cache.dfy ===
/**
 The statistics cache: one document collection in which the current snapshot
 is the document whose `type` field is "descriptive_statistics". Writing
 replaces that document (or inserts it when absent); reading returns its
 fields without the storage identifier and the tag.
 */
module Cache {
  import opened Common
  import opened Statistics

  /** The tag value that marks the snapshot document. */
  const Tag := "descriptive_statistics"

  /** The four statistic fields of a snapshot, in every response and document. */
  const StatKeys: set<string> := {"min", "max", "mean", "median"}

  /** A stored document: the identifier the store assigns (`_id`) and its fields. */
  datatype Document = Document(id: nat, body: Json)

  type Collection = seq<Document>

  /** Matches the filter `{"type": "descriptive_statistics"}`. */
  predicate Tagged(d: Document)
  {
    "type" in d.body && d.body["type"] == Str(Tag)
  }

  function CountTagged(c: Collection): nat
  {
    if c == [] then 0 else (if Tagged(c[0]) then 1 else 0) + CountTagged(c[1..])
  }

  /** Position of the first tagged document: the one `find_one` and `replace_one` pick. */
  function FirstTagged(c: Collection): (r: Option<nat>)
    ensures r.Some? ==> r.value < |c| && Tagged(c[r.value])
    ensures r.Some? ==> forall k :: 0 <= k < r.value ==> !Tagged(c[k])
    ensures r.None? <==> forall k :: 0 <= k < |c| ==> !Tagged(c[k])
    ensures r.None? <==> CountTagged(c) == 0
  {
    if c == [] then None
    else if Tagged(c[0]) then Some(0)
    else match FirstTagged(c[1..])
      case None => None
      case Some(i) => Some(i + 1)
  }

  /** The first tagged position is determined by the tags alone. */
  lemma {:induction false} FirstTaggedAt(c: Collection, i: nat)
    requires i < |c| && Tagged(c[i])
    requires forall k :: 0 <= k < i ==> !Tagged(c[k])
    ensures FirstTagged(c) == Some(i)
    decreases i
  {
    if i > 0 {
      assert !Tagged(c[0]);
      assert forall k :: 0 <= k < i - 1 ==> c[1..][k] == c[k + 1];
      FirstTaggedAt(c[1..], i - 1);
    }
  }

  /** The stats dictionary as a JSON object, `None` fields becoming `null`. */
  function Encode(s: Stats): (j: Json)
    ensures j.Keys == StatKeys
  {
    map["min" := FromOption(s.min), "max" := FromOption(s.max),
        "mean" := FromOption(s.mean), "median" := FromOption(s.median)]
  }

  /** The replacement document's fields: the tag first, then the stats. */
  function StoredBody(s: Stats): (j: Json)
    ensures j.Keys == StatKeys + {"type"}
    ensures forall k :: k in StatKeys ==> j[k] == Encode(s)[k]
    ensures j["type"] == Str(Tag)
  {
    Encode(s)["type" := Str(Tag)]
  }

  lemma {:induction false} CountAppend(c: Collection, d: Document)
    ensures CountTagged(c + [d]) == CountTagged(c) + (if Tagged(d) then 1 else 0)
    decreases |c|
  {
    if c != [] {
      assert (c + [d])[1..] == c[1..] + [d];
      CountAppend(c[1..], d);
    }
  }

  lemma {:induction false} CountUpdate(c: Collection, i: nat, d: Document)
    requires i < |c|
    ensures CountTagged(c[i := d])
            == CountTagged(c) - (if Tagged(c[i]) then 1 else 0) + (if Tagged(d) then 1 else 0)
    decreases |c|
  {
    if i > 0 {
      assert c[i := d][1..] == c[1..][i - 1 := d];
      CountUpdate(c[1..], i - 1, d);
    }
  }

  /** `replace_one({"type": Tag}, {"type": Tag, **stats}, upsert=True)`: the first
      tagged document keeps its identifier and gets the new fields; with none,
      a new document with identifier `freshId` is appended. Every other
      document is left as it was, and the number of tagged documents becomes 1
      if it was 0 and is unchanged otherwise. */
  function Upsert(c: Collection, s: Stats, freshId: nat): (r: Collection)
    ensures |r| == if CountTagged(c) == 0 then |c| + 1 else |c|
    ensures forall j :: 0 <= j < |c| && FirstTagged(c) != Some(j) ==> r[j] == c[j]
    ensures CountTagged(r) == if CountTagged(c) == 0 then 1 else CountTagged(c)
    ensures exists k :: && 0 <= k < |r|
                        && FirstTagged(r) == Some(k)
                        && (if CountTagged(c) == 0 then k == |c| else FirstTagged(c) == Some(k))
                        && r[k] == Document(if k < |c| then c[k].id else freshId, StoredBody(s))
  {
    var d := StoredBody(s);
    match FirstTagged(c)
    case Some(i) =>
      var r := c[i := Document(c[i].id, d)];
      CountUpdate(c, i, Document(c[i].id, d));
      assert forall k :: 0 <= k < i ==> r[k] == c[k];
      FirstTaggedAt(r, i);
      r
    case None =>
      var r := c + [Document(freshId, d)];
      CountAppend(c, Document(freshId, d));
      assert forall k :: 0 <= k < |c| ==> r[k] == c[k];
      FirstTaggedAt(r, |c|);
      r
  }

  /** `find_one({"type": Tag})`: the first tagged document, if any. */
  function FindOne(c: Collection): (r: Option<Document>)
    ensures r.None? <==> CountTagged(c) == 0
    ensures r.Some? ==> Tagged(r.value) && r.value in c
    ensures r.Some? ==> exists i :: 0 <= i < |c| && c[i] == r.value && forall k :: 0 <= k < i ==> !Tagged(c[k])
  {
    match FirstTagged(c)
    case None => None
    case Some(i) => Some(c[i])
  }

  /** `get_from_mongodb` on a reachable store: the snapshot's fields without
      `_id` and `type`, or `None` when no tagged document exists. */
  function FetchLatest(c: Collection): (r: Option<Json>)
    ensures r.None? <==> CountTagged(c) == 0
    ensures r.Some? ==> "type" !in r.value && "_id" !in r.value
    ensures r.Some? ==>
              && FindOne(c).Some?
              && r.value.Keys == FindOne(c).value.body.Keys - {"_id", "type"}
              && forall k :: k in r.value ==> r.value[k] == FindOne(c).value.body[k]
  {
    match FindOne(c)
    case None => None
    case Some(d) => Some(d.body - {"_id", "type"})
  }

  /** Reading back after a write returns exactly the stats written, whatever
      the collection held before. */
  lemma FetchAfterUpsert(c: Collection, s: Stats, freshId: nat)
    ensures FetchLatest(Upsert(c, s, freshId)) == Some(Encode(s))
  {
    var r := Upsert(c, s, freshId);
    var k :| 0 <= k < |r| && r[k].body == StoredBody(s) && FirstTagged(r) == Some(k);
    assert StoredBody(s) - {"_id", "type"} == Encode(s);
  }

  /** The at-most-one-document invariant is kept: with at most one tagged
      document before, there is exactly one after. */
  lemma UpsertKeepsSingleDocument(c: Collection, s: Stats, freshId: nat)
    requires CountTagged(c) <= 1
    ensures CountTagged(Upsert(c, s, freshId)) == 1
  {
  }

  /** Writing the same stats twice leaves the collection as one write does. */
  lemma UpsertIdempotent(c: Collection, s: Stats, id1: nat, id2: nat)
    ensures Upsert(Upsert(c, s, id1), s, id2) == Upsert(c, s, id1)
  {
    var r := Upsert(c, s, id1);
    var k :| 0 <= k < |r| && r[k].body == StoredBody(s) && FirstTagged(r) == Some(k);
    assert r[k := Document(r[k].id, StoredBody(s))] == r;
  }

  /** Backend `get_stats` projection: exactly the four statistic keys, each the
      document's value or `null` when the document lacks it. */
  function Project(body: Json): (j: Json)
    ensures j.Keys == StatKeys
    ensures forall k :: k in StatKeys ==> j[k] == (if k in body then body[k] else Null)
  {
    map k | k in StatKeys :: if k in body then body[k] else Null
  }

  /** Projecting a stored snapshot gives back exactly the stats written:
      neither the tag nor any other stored field leaks. */
  lemma ProjectStored(s: Stats)
    ensures Project(StoredBody(s)) == Encode(s)
  {
  }
}

=== FILE: common.dfy ===
/**
 Shared vocabulary of the services: optional values, request results,
 the errors a request can end in, JSON values, and a log of the
 database handles a request opens and closes.
 */
module Common {

  /** Python's `None`-or-value. */
  datatype Option<+T> = None | Some(value: T)

  /** How a request ends when it does not produce a value.
      - Http: an `HTTPException` raised by the service code (status, fixed detail text);
      - Unhandled: any other exception escapes, which the web framework answers with 500;
      - Stalled: the finite stream of connection outcomes the model is given ran out
        before the retry loop decided (the running program would keep looping). */
  datatype Error = Http(status: int, detail: string) | Unhandled | Stalled

  datatype Result<+T> = Ok(value: T) | Err(error: Error)

  /** A JSON scalar as stored in documents and returned in responses. */
  datatype Value = Null | Num(num: real) | Str(text: string)

  /** A JSON object. */
  type Json = map<string, Value>

  /** `x` as a JSON value, `None` becoming `null`. */
  function FromOption(x: Option<real>): Value
  {
    match x
    case None => Null
    case Some(v) => Num(v)
  }

  /** Things a request does to database handles, in order. */
  datatype Event = OpenConnection | OpenCursor | Execute | Commit | CloseCursor | CloseConnection

  /** Replaying `log` from `depth` open handles: no `close` without an open
      handle, and none left open at the end. */
  predicate Balanced(log: seq<Event>, open: Event, close: Event, depth: nat)
    decreases |log|
  {
    if log == [] then depth == 0
    else if log[0] == open then Balanced(log[1..], open, close, depth + 1)
    else if log[0] == close then depth > 0 && Balanced(log[1..], open, close, depth - 1)
    else Balanced(log[1..], open, close, depth)
  }

  /** Every handle `log` opens with `open` it releases with `close`. */
  predicate Closes(log: seq<Event>, open: Event, close: Event)
  {
    Balanced(log, open, close, 0)
  }

  lemma {:induction false} BalancedFollowed(log: seq<Event>, open: Event, close: Event, depth: nat)
    requires open != close && Balanced(log, open, close, depth)
    ensures depth > 0 ==> close in log
    ensures forall i :: 0 <= i < |log| && log[i] == open ==> close in log[i + 1..]
    decreases |log|
  {
    if log != [] {
      var d' := if log[0] == open then depth + 1 else if log[0] == close then depth - 1 else depth;
      BalancedFollowed(log[1..], open, close, d');
      forall i | 0 <= i < |log| && log[i] == open
        ensures close in log[i + 1..]
      {
        if i == 0 {
          assert log[1..] == log[i + 1..];
        } else {
          assert log[1..][i - 1] == open;
          assert log[1..][i - 1 + 1..] == log[i + 1..];
        }
      }
    }
  }

  /** A balanced log closes every handle after opening it. */
  lemma ClosesFollowed(log: seq<Event>, open: Event, close: Event)
    requires open != close && Closes(log, open, close)
    ensures forall i :: 0 <= i < |log| && log[i] == open ==> close in log[i + 1..]
  {
    BalancedFollowed(log, open, close, 0);
  }
}

=== FILE: deployment.dfy ===
/**
 The state the services share: the relational table of measurements, the
 document collection holding the cached snapshot, and the behaviour of the
 two database servers, given as finite streams of connection outcomes and
 flags saying whether a connected server rejects statements.
 */
module Deployment {
  import opened Common
  import opened Retry
  import opened Cache

  datatype World = World(
    values: seq<real>,            // rows of `float_values`, in the order a full read returns them
    cache: Collection,            // the `analytics.float_statistics` collection
    mysqlAttempts: seq<Attempt>,  // what successive MySQL connection attempts observe
    mongoPings: seq<Ping>,        // what successive MongoDB connection attempts observe
    sqlRejects: bool,             // a connected MySQL server raises on every statement
    mongoRejects: bool,           // a connected MongoDB server raises on every `find_one`/`replace_one`
    nextId: nat)                  // the `_id` the next inserted document receives

  /** A request's outcome and the state it leaves behind. */
  datatype Step<+T> = Step(result: Result<T>, world: World)

  /** Only the connection streams moved: the stores and the servers' behaviour are as before. */
  predicate SameData(w: World, w': World)
  {
    && w'.values == w.values
    && w'.cache == w.cache
    && w'.sqlRejects == w.sqlRejects
    && w'.mongoRejects == w.mongoRejects
    && w'.nextId == w.nextId
  }

  /** `w'` continues `w`: each connection stream has only been read further. */
  predicate Continues(w: World, w': World)
  {
    && |w'.mysqlAttempts| <= |w.mysqlAttempts|
    && w'.mysqlAttempts == w.mysqlAttempts[|w.mysqlAttempts| - |w'.mysqlAttempts|..]
    && |w'.mongoPings| <= |w.mongoPings|
    && w'.mongoPings == w.mongoPings[|w.mongoPings| - |w'.mongoPings|..]
    && w'.sqlRejects == w.sqlRejects
    && w'.mongoRejects == w.mongoRejects
  }

  lemma ContinuesTransitive(w: World, w': World, w'': World)
    requires Continues(w, w') && Continues(w', w'')
    ensures Continues(w, w'')
  {
    var a, b := w.mysqlAttempts, w'.mysqlAttempts;
    assert w''.mysqlAttempts == a[|a| - |b|..][|b| - |w''.mysqlAttempts|..];
    var p, q := w.mongoPings, w'.mongoPings;
    assert w''.mongoPings == p[|p| - |q|..][|q| - |w''.mongoPings|..];
  }
}

=== FILE: retry.dfy ===
/**
 The connection-retry discipline shared (by copy) by the three store
 clients: `attempt` starts at 0 and the loop runs while `attempt < retries`;
 a live connection is returned at once, a connection that opened but is not
 live just goes round again without counting, a retryable exception counts
 one attempt and either raises (when the budget is spent) or sleeps and goes
 round again, and any other exception escapes immediately.

 The environment is a finite stream of attempt outcomes; the loop consumes
 one outcome per iteration.
 */
module Retry {
  import opened Common

  /** What one iteration of the loop observes. */
  datatype Attempt =
    | Live        // connection opened and reports itself connected
    | NotLive     // connection opened but `is_connected()` is false
    | Retryable   // the exception class the loop catches
    | Fatal       // any other exception

  /** How the loop ends. */
  datatype Exit =
    | Connected      // returned a live connection
    | Exhausted      // raised after the `retries`-th caught exception
    | FellThrough    // loop condition false on entry: body never ran
    | Propagated     // an uncaught exception escaped
    | StreamEnded  // the outcome stream ended while the loop was still undecided

  /** `consumed` outcomes were read from the stream; `sleeps` calls to `time.sleep` were made. */
  datatype Run = Run(exit: Exit, consumed: nat, sleeps: nat)

  /** Number of caught (counted) exceptions in `s`. */
  function Failures(s: seq<Attempt>): nat
  {
    if s == [] then 0
    else (if s[0] == Retryable then 1 else 0) + Failures(s[1..])
  }

  /** No outcome in `s` ends the loop by itself. */
  predicate Undecided(s: seq<Attempt>)
  {
    forall i :: 0 <= i < |s| ==> s[i] == NotLive || s[i] == Retryable
  }

  lemma PrefixCons(s: seq<Attempt>, k: nat)
    requires 0 < k <= |s|
    ensures Failures(s[..k]) == (if s[0] == Retryable then 1 else 0) + Failures(s[1..][..k - 1])
    ensures Undecided(s[..k]) <==> (s[0] == NotLive || s[0] == Retryable) && Undecided(s[1..][..k - 1])
  {
    assert s[..k][1..] == s[1..][..k - 1];
    assert s[..k] == [s[0]] + s[1..][..k - 1];
  }

  /** The loop from the state where `attempt` exceptions have been counted so far. */
  function Loop(rest: seq<Attempt>, attempt: nat, retries: int): (r: Run)
    ensures r.consumed <= |rest|
    decreases |rest|
  {
    if attempt >= retries then Run(FellThrough, 0, 0)
    else if rest == [] then Run(StreamEnded, 0, 0)
    else
      match rest[0]
      case Live => Run(Connected, 1, 0)
      case Fatal => Run(Propagated, 1, 0)
      case NotLive =>
        var r := Loop(rest[1..], attempt, retries);
        r.(consumed := r.consumed + 1)
      case Retryable =>
        if attempt + 1 >= retries then Run(Exhausted, 1, 0)
        else
          var r := Loop(rest[1..], attempt + 1, retries);
          r.(consumed := r.consumed + 1, sleeps := r.sleeps + 1)
  }

  /** `r` is the run of the loop started with `attempt` counted exceptions over
      the stream `rest`, described by where it stopped: the loop stops at the
      first outcome that is live or fatal, or at the caught exception that
      brings the count to `retries`; every caught exception before the stop
      was followed by one sleep. */
  predicate Explains(rest: seq<Attempt>, attempt: nat, retries: int, r: Run)
  {
    && r.consumed <= |rest|
    && (r.exit == FellThrough <==> attempt >= retries)
    && match r.exit
       case FellThrough => r.consumed == 0 && r.sleeps == 0
       case Connected =>
         && 0 < r.consumed
         && rest[r.consumed - 1] == Live
         && Undecided(rest[..r.consumed - 1])
         && attempt + Failures(rest[..r.consumed]) < retries
         && r.sleeps == Failures(rest[..r.consumed])
       case Propagated =>
         && 0 < r.consumed
         && rest[r.consumed - 1] == Fatal
         && Undecided(rest[..r.consumed - 1])
         && attempt + Failures(rest[..r.consumed]) < retries
         && r.sleeps == Failures(rest[..r.consumed])
       case Exhausted =>
         && 0 < r.consumed
         && rest[r.consumed - 1] == Retryable
         && Undecided(rest[..r.consumed])
         && attempt + Failures(rest[..r.consumed]) == retries
         && r.sleeps + 1 == Failures(rest[..r.consumed])
       case StreamEnded =>
         && r.consumed == |rest|
         && Undecided(rest)
         && attempt + Failures(rest) < retries
         && r.sleeps == Failures(rest)
  }

  lemma {:induction false} LoopExplained(rest: seq<Attempt>, attempt: nat, retries: int)
    ensures Explains(rest, attempt, retries, Loop(rest, attempt, retries))
    decreases |rest|
  {
    if attempt >= retries || rest == [] {
    } else {
      match rest[0]
      case Live =>
        assert rest[..0] == [];
      case Fatal =>
        assert rest[..0] == [];
        assert rest[..1] == [Fatal];
      case NotLive =>
        LoopExplained(rest[1..], attempt, retries);
        ExplainsStep(rest, attempt, retries, Loop(rest[1..], attempt, retries));
      case Retryable =>
        if attempt + 1 >= retries {
          assert rest[..1] == [Retryable];
        } else {
          LoopExplained(rest[1..], attempt + 1, retries);
          ExplainsStep(rest, attempt, retries, Loop(rest[1..], attempt + 1, retries));
        }
    }
  }

  /** One undecided outcome in front of an explained run of the rest. */
  lemma ExplainsStep(rest: seq<Attempt>, attempt: nat, retries: int, t: Run)
    requires rest != [] && (rest[0] == NotLive || rest[0] == Retryable)
    requires attempt < retries
    requires var next := if rest[0] == Retryable then attempt + 1 else attempt;
             next < retries && Explains(rest[1..], next, retries, t)
    ensures Explains(rest, attempt, retries,
                     t.(consumed := t.consumed + 1,
                        sleeps := t.sleeps + if rest[0] == Retryable then 1 else 0))
  {
    PrefixCons(rest, t.consumed + 1);
    if t.exit == Connected || t.exit == Propagated {
      PrefixCons(rest, t.consumed);
    }
  }

  /** `n` copies of `a`. */
  function Repeat<T>(a: T, n: nat): (s: seq<T>)
    ensures |s| == n
    ensures forall i :: 0 <= i < n ==> s[i] == a
  {
    if n == 0 then [] else [a] + Repeat(a, n - 1)
  }

  /** `n` caught exceptions followed by a live connection, within budget:
      the loop connects on attempt `n + 1` after exactly `n` sleeps. */
  lemma {:induction false} LoopSucceedsAfter(n: nat, attempt: nat, retries: int, tail: seq<Attempt>)
    requires attempt + n < retries
    ensures Loop(Repeat(Retryable, n) + [Live] + tail, attempt, retries) == Run(Connected, n + 1, n)
    decreases n
  {
    var s := Repeat(Retryable, n) + [Live] + tail;
    if n > 0 {
      assert s[0] == Retryable;
      assert s[1..] == Repeat(Retryable, n - 1) + [Live] + tail;
      LoopSucceedsAfter(n - 1, attempt + 1, retries, tail);
    }
  }

  /** Once `n` caught exceptions bring the count to the budget, the loop raises
      after `n` attempts, having slept between them only (`n - 1` sleeps). */
  lemma {:induction false} LoopExhaustedAfter(n: nat, attempt: nat, tail: seq<Attempt>)
    requires 0 < n
    ensures Loop(Repeat(Retryable, n) + tail, attempt, attempt + n) == Run(Exhausted, n, n - 1)
    decreases n
  {
    var s := Repeat(Retryable, n) + tail;
    assert s[0] == Retryable;
    if n > 1 {
      assert s[1..] == Repeat(Retryable, n - 1) + tail;
      LoopExhaustedAfter(n - 1, attempt + 1, tail);
    }
  }

  /** `s` without its not-live outcomes. */
  function LiveOrFailed(s: seq<Attempt>): (t: seq<Attempt>)
    ensures |t| <= |s|
    ensures forall i :: 0 <= i < |t| ==> t[i] != NotLive
  {
    if s == [] then []
    else if s[0] == NotLive then LiveOrFailed(s[1..])
    else [s[0]] + LiveOrFailed(s[1..])
  }

  /** Connections that open without being live are not counted: removing them
      from the stream changes neither how the loop ends nor how often it sleeps. */
  lemma {:induction false} NotLiveIsNotCounted(rest: seq<Attempt>, attempt: nat, retries: int)
    ensures Loop(LiveOrFailed(rest), attempt, retries).exit == Loop(rest, attempt, retries).exit
    ensures Loop(LiveOrFailed(rest), attempt, retries).sleeps == Loop(rest, attempt, retries).sleeps
    decreases |rest|
  {
    if attempt >= retries || rest == [] {
    } else {
      var t := LiveOrFailed(rest);
      if rest[0] == NotLive {
        NotLiveIsNotCounted(rest[1..], attempt, retries);
      } else {
        assert t[0] == rest[0] && t[1..] == LiveOrFailed(rest[1..]);
        if rest[0] == Retryable && attempt + 1 < retries {
          NotLiveIsNotCounted(rest[1..], attempt + 1, retries);
        }
      }
    }
  }

  lemma {:induction false} FailuresSnoc(s: seq<Attempt>, a: Attempt)
    ensures Failures(s + [a]) == Failures(s) + (if a == Retryable then 1 else 0)
    decreases |s|
  {
    if s != [] {
      assert (s + [a])[1..] == s[1..] + [a];
      FailuresSnoc(s[1..], a);
    }
  }

  /** Counted exceptions only accumulate along the stream. */
  lemma {:induction false} FailuresMonotone(s: seq<Attempt>, j: nat, k: nat)
    requires j <= k <= |s|
    ensures Failures(s[..j]) <= Failures(s[..k])
    ensures j < k && s[k - 1] == Retryable ==> Failures(s[..j]) < Failures(s[..k])
    decreases k - j
  {
    if j < k {
      FailuresMonotone(s, j, k - 1);
      assert s[..k] == s[..k - 1] + [s[k - 1]];
      FailuresSnoc(s[..k - 1], s[k - 1]);
    }
  }

  /** A run that fits `Explains` cannot have stopped before another that fits it:
      the earlier stop would lie inside the later run's undecided prefix, or its
      count would already have reached the budget. */
  lemma NoEarlierStop(rest: seq<Attempt>, attempt: nat, retries: int, r: Run, q: Run)
    requires attempt < retries
    requires Explains(rest, attempt, retries, r) && Explains(rest, attempt, retries, q)
    ensures r.consumed <= q.consumed
  {
    if q.consumed < r.consumed {
      var k := q.consumed;
      // If q stopped on a live or fatal outcome, that outcome would lie inside
      // r's undecided prefix, which the verifier sees unaided.
      if q.exit == Exhausted {
        // q's count already reached the budget at k; r counts at least as many
        assert rest[..|rest|] == rest;
        FailuresMonotone(rest, k, r.consumed);
      }
    }
  }

  /** `Explains` is a complete description of the loop: at most one run fits it,
      so it serves as an independent definition of `Loop`. */
  lemma ExplainsUnique(rest: seq<Attempt>, attempt: nat, retries: int, r1: Run, r2: Run)
    requires Explains(rest, attempt, retries, r1) && Explains(rest, attempt, retries, r2)
    ensures r1 == r2
  {
    if attempt < retries {
      NoEarlierStop(rest, attempt, retries, r1, r2);
      NoEarlierStop(rest, attempt, retries, r2, r1);
      assert rest[..|rest|] == rest;
    }
  }

  /** `Loop` is the only run that `Explains` admits. */
  lemma LoopIsExplained(rest: seq<Attempt>, attempt: nat, retries: int, r: Run)
    ensures Explains(rest, attempt, retries, r) <==> r == Loop(rest, attempt, retries)
  {
    LoopExplained(rest, attempt, retries);
    if Explains(rest, attempt, retries, r) {
      ExplainsUnique(rest, attempt, retries, r, Loop(rest, attempt, retries));
    }
  }

  /** What a client's connection function hands back to its caller. */
  datatype Conn =
    | Open                 // a usable connection
    | ReturnedNone         // the function fell off its loop and returned `None`
    | Failed(error: Error) // it raised

  /** A client's copy of the loop: its budget, the exception it raises when the
      budget is spent, and what happens when the loop body never runs. */
  datatype Policy = Policy(retries: int, exhausted: Error, afterLoop: Conn)

  datatype Acquired = Acquired(conn: Conn, consumed: nat, sleeps: nat)

  /** `get_mysql_connection(retries)` of the analytics service: 503 when spent, `None` when never entered. */
  function AnalyticsMysql(retries: int): Policy
  {
    Policy(retries, Http(503, "MySQL connection failed"), ReturnedNone)
  }

  /** `get_mongo_connection(retries)` of the analytics service: 503 when spent, `None` when never entered. */
  function AnalyticsMongo(retries: int): Policy
  {
    Policy(retries, Http(503, "MongoDB connection failed"), ReturnedNone)
  }

  /** `get_db_connection(retries)` of the backend: 500 when spent, and a 500
      "Unknown error" after the loop when it was never entered. */
  function BackendDb(retries: int): Policy
  {
    Policy(retries, Http(500, "Database connection failed"),
           Failed(Http(500, "Database connection failed: Unknown error")))
  }

  /** Default budgets of the three clients (their callers never pass one). */
  const MysqlRetries := 5
  const MongoRetries := 10
  const BackendRetries := 5

  /** Runs the policy's loop over the stream and translates its end into what
      the caller receives. The wait is bounded: at most `retries - 1` sleeps. */
  function Acquire(p: Policy, attempts: seq<Attempt>): (a: Acquired)
    ensures a.consumed <= |attempts|
    ensures p.retries <= 0 ==> a == Acquired(p.afterLoop, 0, 0)
    ensures 0 < p.retries ==> a.sleeps < p.retries
    ensures 0 < p.retries && a.conn == Open ==> 0 < a.consumed && attempts[a.consumed - 1] == Live
    ensures 0 < p.retries && a.conn != Open ==>
              a.conn in {Failed(p.exhausted), Failed(Unhandled), Failed(Stalled)}
  {
    var r := Loop(attempts, 0, p.retries);
    LoopExplained(attempts, 0, p.retries);
    var conn := match r.exit
      case Connected => Open
      case Exhausted => Failed(p.exhausted)
      case FellThrough => p.afterLoop
      case Propagated => Failed(Unhandled)
      case StreamEnded => Failed(Stalled);
    Acquired(conn, r.consumed, r.sleeps)
  }

  /** Sleeps are counted by caught exceptions whatever the stream: one after
      each caught exception before a success, and one after each but the last
      when the budget is spent, not-live connections in between counting for
      nothing. */
  lemma AcquireSleeps(p: Policy, attempts: seq<Attempt>)
    requires 0 < p.retries && p.exhausted.Http?
    ensures var a := Acquire(p, attempts);
            a.conn == Open ==> a.sleeps == Failures(attempts[..a.consumed]) < p.retries
    ensures var a := Acquire(p, attempts);
            a.conn == Failed(p.exhausted) ==>
              && Failures(attempts[..a.consumed]) == p.retries
              && a.sleeps == p.retries - 1
  {
    LoopExplained(attempts, 0, p.retries);
  }

  /** Success on attempt `n + 1` after `n` caught exceptions, `n` sleeps. */
  lemma AcquireAfterFailures(p: Policy, n: nat, tail: seq<Attempt>)
    requires n < p.retries
    ensures Acquire(p, Repeat(Retryable, n) + [Live] + tail) == Acquired(Open, n + 1, n)
  {
    LoopSucceedsAfter(n, 0, p.retries, tail);
  }

  /** `retries` caught exceptions in a row raise the policy's exception after
      `retries - 1` sleeps, whatever the stream holds afterwards. */
  lemma AcquireExhausted(p: Policy, tail: seq<Attempt>)
    requires 0 < p.retries
    ensures Acquire(p, Repeat(Retryable, p.retries) + tail) == Acquired(Failed(p.exhausted), p.retries, p.retries - 1)
  {
    LoopExhaustedAfter(p.retries, 0, tail);
  }

  /** The analytics MySQL client: 503 after `retries` failures, `None` without a budget. */
  lemma AnalyticsMysqlRetry(retries: int, tail: seq<Attempt>)
    ensures retries <= 0 ==> Acquire(AnalyticsMysql(retries), tail) == Acquired(ReturnedNone, 0, 0)
    ensures 0 < retries ==>
              Acquire(AnalyticsMysql(retries), Repeat(Retryable, retries) + tail)
              == Acquired(Failed(Http(503, "MySQL connection failed")), retries, retries - 1)
  {
    if 0 < retries {
      AcquireExhausted(AnalyticsMysql(retries), tail);
    }
  }

  /** The backend client: 500 (not 503) after `retries` failures, and a 500
      "Unknown error" with no attempt made when the budget is not positive. */
  lemma BackendDbRetry(retries: int, tail: seq<Attempt>)
    ensures retries <= 0 ==>
              Acquire(BackendDb(retries), tail)
              == Acquired(Failed(Http(500, "Database connection failed: Unknown error")), 0, 0)
    ensures 0 < retries ==>
              Acquire(BackendDb(retries), Repeat(Retryable, retries) + tail)
              == Acquired(Failed(Http(500, "Database connection failed")), retries, retries - 1)
  {
    if 0 < retries {
      AcquireExhausted(BackendDb(retries), tail);
    }
  }

  /** What one iteration of the MongoDB loop observes: the ping answers, the
      server selection times out (the only exception caught), or something else fails. */
  datatype Ping = Pong | SelectionTimeout | OtherFailure

  /** The MongoDB loop has no not-live case: a client whose ping answered is returned. */
  function FromPing(p: Ping): Attempt
  {
    match p
    case Pong => Live
    case SelectionTimeout => Retryable
    case OtherFailure => Fatal
  }

  function FromPings(ps: seq<Ping>): (s: seq<Attempt>)
    ensures |s| == |ps|
    ensures forall i :: 0 <= i < |ps| ==> s[i] == FromPing(ps[i])
  {
    if ps == [] then [] else [FromPing(ps[0])] + FromPings(ps[1..])
  }

  /** `get_mongo_connection(retries)`: a client is returned only once a ping
      answered, and any failure is the 503, an escaping exception, or the
      stream running dry. */
  function AcquireMongo(retries: int, pings: seq<Ping>): (a: Acquired)
    ensures a.consumed <= |pings|
    ensures retries <= 0 ==> a == Acquired(ReturnedNone, 0, 0)
    ensures 0 < retries && a.conn == Open ==> 0 < a.consumed && pings[a.consumed - 1] == Pong
    ensures 0 < retries && a.conn != Open ==>
              a.conn in {Failed(Http(503, "MongoDB connection failed")), Failed(Unhandled), Failed(Stalled)}
  {
    Acquire(AnalyticsMongo(retries), FromPings(pings))
  }

  /** `n` caught exceptions within budget followed by an uncaught one: it
      escapes on attempt `n + 1` after `n` sleeps. */
  lemma {:induction false} LoopPropagatesAfter(n: nat, attempt: nat, retries: int, tail: seq<Attempt>)
    requires attempt + n < retries
    ensures Loop(Repeat(Retryable, n) + [Fatal] + tail, attempt, retries) == Run(Propagated, n + 1, n)
    decreases n
  {
    var s := Repeat(Retryable, n) + [Fatal] + tail;
    if n > 0 {
      assert s[0] == Retryable;
      assert s[1..] == Repeat(Retryable, n - 1) + [Fatal] + tail;
      LoopPropagatesAfter(n - 1, attempt + 1, retries, tail);
    }
  }

  /** Only timeouts are retried: after `n` timeouts within budget, any other
      failure escapes at once, with the `n` sleeps already taken. */
  lemma MongoOtherFailureEscapes(n: nat, retries: int, tail: seq<Ping>)
    requires n < retries
    ensures AcquireMongo(retries, Repeat(SelectionTimeout, n) + [OtherFailure] + tail)
            == Acquired(Failed(Unhandled), n + 1, n)
  {
    var ps := Repeat(SelectionTimeout, n) + [OtherFailure] + tail;
    assert FromPings(ps) == Repeat(Retryable, n) + [Fatal] + FromPings(tail);
    LoopPropagatesAfter(n, 0, retries, FromPings(tail));
  }
}

=== FILE: statistics.dfy ===
/**
 The statistics engine: minimum, maximum, arithmetic mean and median of a
 sequence of measurements, with all four absent on empty input. Values are
 exact reals standing for the source's double-precision floats.
 */
module Statistics {
  import opened Common

  /** The computed snapshot; `None` is the source's `None`. */
  datatype Stats = Stats(min: Option<real>, max: Option<real>, mean: Option<real>, median: Option<real>)

  /** The smallest element. */
  function Min(s: seq<real>): (m: real)
    requires |s| > 0
    ensures m in s
    ensures forall x :: x in s ==> m <= x
  {
    if |s| == 1 then s[0]
    else
      var rest := Min(s[1..]);
      assert forall x :: x in s ==> x == s[0] || x in s[1..];
      if s[0] <= rest then s[0] else rest
  }

  /** The largest element. */
  function Max(s: seq<real>): (m: real)
    requires |s| > 0
    ensures m in s
    ensures forall x :: x in s ==> x <= m
  {
    if |s| == 1 then s[0]
    else
      var rest := Max(s[1..]);
      assert forall x :: x in s ==> x == s[0] || x in s[1..];
      if rest <= s[0] then s[0] else rest
  }

  function Sum(s: seq<real>): real
  {
    if s == [] then 0.0 else s[0] + Sum(s[1..])
  }

  /** The sum lies between `|s|` times the minimum and `|s|` times the maximum. */
  lemma {:induction false} SumBounds(s: seq<real>, lo: real, hi: real)
    requires forall x :: x in s ==> lo <= x <= hi
    ensures (|s| as real) * lo <= Sum(s) <= (|s| as real) * hi
    decreases |s|
  {
    if s != [] {
      assert s[0] in s;
      assert forall x :: x in s[1..] ==> x in s;
      SumBounds(s[1..], lo, hi);
      var n := (|s| - 1) as real;
      assert (|s| as real) * lo == lo + n * lo;
      assert (|s| as real) * hi == hi + n * hi;
    }
  }

  /** The arithmetic mean lies between the extremes. */
  function Mean(s: seq<real>): (m: real)
    requires |s| > 0
    ensures Min(s) <= m <= Max(s)
  {
    var n := |s| as real;
    SumBounds(s, Min(s), Max(s));
    DivBounds(Sum(s), n, Min(s), Max(s));
    Sum(s) / n
  }

  lemma DivBounds(total: real, n: real, lo: real, hi: real)
    requires 0.0 < n
    requires n * lo <= total <= n * hi
    ensures lo <= total / n <= hi
  {
    assert total / n * n == total;
  }

  predicate Sorted(s: seq<real>)
  {
    forall i, j :: 0 <= i < j < |s| ==> s[i] <= s[j]
  }

  /** A sequence is its head followed by its tail. */
  lemma SplitHead(s: seq<real>)
    requires s != []
    ensures s == [s[0]] + s[1..]
    ensures multiset(s) == multiset{s[0]} + multiset(s[1..])
    ensures Sorted(s) ==> Sorted(s[1..]) && forall k :: 0 <= k < |s| ==> s[0] <= s[k]
  {
    assert s == [s[0]] + s[1..];
  }

  /** A value no larger than the head of a sorted sequence can go in front. */
  lemma SortedCons(a: real, t: seq<real>)
    requires Sorted(t)
    requires t == [] || a <= t[0]
    ensures Sorted([a] + t)
  {
    var r := [a] + t;
    forall i, j | 0 <= i < j < |r|
      ensures r[i] <= r[j]
    {
      assert r[j] == t[j - 1];
      if i > 0 {
        assert r[i] == t[i - 1];
      } else if t != [] {
        assert t[0] <= t[j - 1];
      }
    }
  }

  /** `x` placed into the sorted sequence `s` before the first larger-or-equal element. */
  function Insert(x: real, s: seq<real>): (r: seq<real>)
    requires Sorted(s)
    ensures Sorted(r)
    ensures multiset(r) == multiset(s) + multiset{x}
    ensures |r| == |s| + 1
    ensures r[0] == x || (|s| > 0 && r[0] == s[0])
  {
    if s == [] then [x]
    else if x <= s[0] then [x] + s
    else
      var t := Insert(x, s[1..]);
      SplitHead(s);
      SortedCons(s[0], t);
      [s[0]] + t
  }

  /** The values in ascending order (the order the median is read from). */
  function Sort(s: seq<real>): (r: seq<real>)
    ensures Sorted(r)
    ensures multiset(r) == multiset(s)
    ensures |r| == |s|
  {
    if s == [] then []
    else
      assert s == [s[0]] + s[1..];
      Insert(s[0], Sort(s[1..]))
  }

  /** The middle element of the sorted values for odd length, the average of
      the two middle ones for even length. */
  function Median(s: seq<real>): (m: real)
    requires |s| > 0
    ensures Min(s) <= m <= Max(s)
  {
    var t := Sort(s);
    var n := |t|;
    SortedElementBounds(s, n / 2);
    SortedElementBounds(s, if n % 2 == 0 then n / 2 - 1 else n / 2);
    if n % 2 == 1 then t[n / 2] else (t[n / 2 - 1] + t[n / 2]) / 2.0
  }

  /** Every element of the sorted values is a value of the input. */
  lemma SortedElementBounds(s: seq<real>, i: nat)
    requires i < |s|
    ensures Sort(s)[i] in s
    ensures Min(s) <= Sort(s)[i] <= Max(s)
  {
    var t := Sort(s);
    assert t[i] in multiset(t);
  }

  /** `compute_statistics`: all four fields absent exactly for empty input;
      otherwise the extremes are elements of the input bounding it, and the
      mean and the median lie between them. */
  function ComputeStatistics(values: seq<real>): (r: Stats)
    ensures values == [] <==> r.min.None?
    ensures values == [] <==> r.max.None?
    ensures values == [] <==> r.mean.None?
    ensures values == [] <==> r.median.None?
    ensures values != [] ==>
              && r.min.value in values && r.max.value in values
              && (forall x :: x in values ==> r.min.value <= x <= r.max.value)
              && r.min.value <= r.mean.value <= r.max.value
              && r.min.value <= r.median.value <= r.max.value
  {
    if values == [] then Stats(None, None, None, None)
    else Stats(Some(Min(values)), Some(Max(values)), Some(Mean(values)), Some(Median(values)))
  }

  /** Two sorted arrangements of the same values are the same sequence. */
  lemma {:induction false} SortedUnique(a: seq<real>, b: seq<real>)
    requires Sorted(a) && Sorted(b)
    requires multiset(a) == multiset(b)
    ensures a == b
    decreases |a|
  {
    if a != [] {
      assert |b| == |multiset(b)| == |multiset(a)| == |a|;
      SameHead(a, b);
      TailMultiset(a);
      TailMultiset(b);
      SortedUnique(a[1..], b[1..]);
      SplitHead(a);
      SplitHead(b);
    }
  }

  /** Two sorted arrangements of the same values start with the same, least, value. */
  lemma SameHead(a: seq<real>, b: seq<real>)
    requires Sorted(a) && Sorted(b) && a != [] && b != []
    requires multiset(a) == multiset(b)
    ensures a[0] == b[0]
  {
    assert a[0] in multiset(b);
    assert b[0] in multiset(a);
    var i :| 0 <= i < |b| && b[i] == a[0];
    var j :| 0 <= j < |a| && a[j] == b[0];
  }

  lemma TailMultiset(a: seq<real>)
    requires a != []
    ensures multiset(a[1..]) == multiset(a) - multiset{a[0]}
    ensures Sorted(a) ==> Sorted(a[1..])
  {
    SplitHead(a);
  }

  /** Sorting depends only on the values, not on their arrangement. */
  lemma SortOfPermutation(a: seq<real>, b: seq<real>)
    requires multiset(a) == multiset(b)
    ensures Sort(a) == Sort(b)
  {
    SortedUnique(Sort(a), Sort(b));
  }

  lemma {:induction false} SumInsert(x: real, s: seq<real>)
    requires Sorted(s)
    ensures Sum(Insert(x, s)) == x + Sum(s)
    decreases |s|
  {
    if s != [] && x > s[0] {
      SumInsert(x, s[1..]);
      assert ([s[0]] + Insert(x, s[1..]))[1..] == Insert(x, s[1..]);
    }
  }

  lemma {:induction false} SumSort(s: seq<real>)
    ensures Sum(Sort(s)) == Sum(s)
    decreases |s|
  {
    if s != [] {
      SumSort(s[1..]);
      SumInsert(s[0], Sort(s[1..]));
    }
  }

  /** Equal multisets have the same elements. */
  lemma SameElements(a: seq<real>, b: seq<real>)
    requires multiset(a) == multiset(b)
    ensures |a| == |b|
    ensures forall x :: x in a <==> x in b
  {
    assert |a| == |multiset(a)| == |b|;
    forall x ensures x in a <==> x in b {
      assert x in a <==> x in multiset(a);
      assert x in b <==> x in multiset(b);
    }
  }

  /** The extremes are the least and greatest value: rearranging changes neither. */
  lemma ExtremesOfPermutation(a: seq<real>, b: seq<real>)
    requires |a| > 0
    requires multiset(a) == multiset(b)
    ensures |b| > 0 && Min(a) == Min(b) && Max(a) == Max(b)
  {
    SameElements(a, b);
    assert Min(a) in b && Min(b) in a;
    assert Max(a) in b && Max(b) in a;
  }

  lemma MeanOfPermutation(a: seq<real>, b: seq<real>)
    requires |a| > 0
    requires multiset(a) == multiset(b)
    ensures |b| > 0 && Mean(a) == Mean(b)
  {
    SameElements(a, b);
    SortOfPermutation(a, b);
    SumSort(a);
    SumSort(b);
  }

  lemma MedianOfPermutation(a: seq<real>, b: seq<real>)
    requires |a| > 0
    requires multiset(a) == multiset(b)
    ensures |b| > 0 && Median(a) == Median(b)
  {
    SameElements(a, b);
    SortOfPermutation(a, b);
  }

  /** The snapshot does not depend on the order the store returned the values in. */
  lemma PermutationInvariant(a: seq<real>, b: seq<real>)
    requires multiset(a) == multiset(b)
    ensures ComputeStatistics(a) == ComputeStatistics(b)
  {
    SameElements(a, b);
    if a != [] {
      ExtremesOfPermutation(a, b);
      MeanOfPermutation(a, b);
      MedianOfPermutation(a, b);
    }
  }

  /** Already-ordered input is left as it is by sorting. */
  lemma SortOfSorted(s: seq<real>)
    requires Sorted(s)
    ensures Sort(s) == s
  {
    SortedUnique(Sort(s), s);
  }

  /** On ordered input the median is read off the middle position(s) directly. */
  lemma MedianOfSorted(s: seq<real>)
    requires |s| > 0 && Sorted(s)
    ensures |s| % 2 == 1 ==> Median(s) == s[|s| / 2]
    ensures |s| % 2 == 0 ==> Median(s) == (s[|s| / 2 - 1] + s[|s| / 2]) / 2.0
  {
    SortOfSorted(s);
  }

  /** Worked value: the median of 1..4 is 2.5 (the average of 2 and 3). */
  lemma EvenMedianExample(s: seq<real>)
    requires s == [1.0, 2.0, 3.0, 4.0]
    ensures Median(s) == 2.5
  {
    SortedCons(3.0, [4.0]);
    SortedCons(2.0, [3.0, 4.0]);
    SortedCons(1.0, [2.0, 3.0, 4.0]);
    MedianOfSorted(s);
    assert |s| / 2 == 2 && s[1] == 2.0 && s[2] == 3.0;
  }

  /** Worked value: the median of 1..3 is 2. */
  lemma OddMedianExample(s: seq<real>)
    requires s == [1.0, 2.0, 3.0]
    ensures Median(s) == 2.0
  {
    SortedCons(2.0, [3.0]);
    SortedCons(1.0, [2.0, 3.0]);
    MedianOfSorted(s);
  }

  /** Worked value: the mean of 1..4 is 2.5. */
  lemma MeanExample(s: seq<real>)
    requires s == [1.0, 2.0, 3.0, 4.0]
    ensures Mean(s) == 2.5
  {
    assert Sum([4.0]) == 4.0;
    assert Sum([3.0, 4.0]) == 7.0 by { assert [3.0, 4.0][1..] == [4.0]; }
    assert Sum([2.0, 3.0, 4.0]) == 9.0 by { assert [2.0, 3.0, 4.0][1..] == [3.0, 4.0]; }
    assert Sum(s) == 10.0 by { assert s[1..] == [2.0, 3.0, 4.0]; }
  }

  /** An unordered input gives the same snapshot as its ordering. */
  lemma UnorderedExample(s: seq<real>)
    requires s == [3.0, 1.0, 2.0]
    ensures ComputeStatistics(s).median == Some(2.0)
  {
    var t := [1.0, 2.0, 3.0];
    var head, tail := [3.0], [1.0, 2.0];
    assert s == head + tail && t == tail + head;
    assert multiset(s) == multiset(head) + multiset(tail) == multiset(t);
    PermutationInvariant(s, t);
    OddMedianExample(t);
  }
}
